=== FILE: README.md ===
# DynamoDB-stream to Firehose adapter: batching model

The adapter is an AWS Lambda function. It receives DynamoDB stream records and
forwards the selected image of each record (the new image by default, the old
image when configured) to a Kinesis Firehose delivery stream. Firehose accepts
at most 500 records and less than 4 MiB per call. `create_kinesis_batches`
respects both limits with a pass loop: it walks the records, appends each
encoded image, and stops once it has appended 500 records or at the first image that would
bring the running total to 4194304 bytes or more. It then recurses on the
records the pass did not consume. Records without the selected image are
consumed but appended to nothing, so they do not count toward the 500.
`put_records_batch` is meant to send a batch and log how many records
succeeded and which failed.

The model is split into these modules:

- `StreamRecords` holds:
  - the records;
  - the image choice made at start-up;
  - the reference definition `Forwarded`: the selected images in record order.
- `KinesisPass` holds:
  - the pass loop as the method `Pass`;
  - its specification `Consumed`, the first point where the pass stops;
  - the limit properties of one pass.
- `KinesisBatches` holds the recursion as the method `CreateKinesisBatches`, specified by:
  - the function `Batches`, proved equal to `Forwarded`;
  - the per-pass chunks `Chunks`.
- `Termination` characterises exactly when the recursion ends.
- `Scenarios` works through concrete cases with the adapter's own limits.
- `Dispatch` models the accounting in `put_records_batch`, with Firehose's response taken as an argument.

The limits are parameters (`Limits(maxCount, maxBytes)`). `SourceLimits` holds
the source's constants: 500 records and 4194304 bytes.

Behaviour of the code worth noting:

- **The size cutoff excludes the record that trips it.** For images of
  4,000,000, 200,000 and 200,000 bytes, the code cuts off before the second
  record, since 4200000 >= 4194304. The chunks are therefore
  [[first], [second, third]] (`Scenarios.CutoffAfterFirstRecord`).
- **Empty chunks are not suppressed.** A final pass can produce an empty
  chunk whenever the records it receives all lack the selected image. That
  covers a list in which no record carries the image
  (`KinesisBatches.NoImagesOneEmptyChunk`). It also covers the records left
  after a count cutoff: a pass that reaches the record limit stops at once, and
  the records after the last image make an empty chunk of their own
  (`KinesisBatches.AtCountLimit`, `Scenarios.CountLimitThenEmptyChunk`). A size
  cutoff is never followed by an empty chunk, because the record that tripped
  it heads the next one (`KinesisBatches.CutoffRecordStartsNextChunk`).
- **The recursion result is flat.** It is one list of Firehose records, not a
  list of batches.
- **An oversized record makes the recursion repeat itself.** This is a record
  whose image alone reaches 4194304 bytes. It is never consumed, so from the
  moment it heads the list, `count` stays 0 and each call passes
  `dynamodb_records[0:]`, the same list, to the next one
  (`Termination.OversizedLoops`). The recursion never reaches its base case.
  On Python 2 the interpreter stops it at its recursion limit, about 1000
  frames, with `RuntimeError: maximum recursion depth exceeded`, so the
  invocation fails. On Python 3 the recursion limit is never reached. An
  oversized record carries an image, and line 37 raises `TypeError` on the
  first image, before any pass appends anything (see "## Left out").
- **The Firehose call names a method the client does not have.** Line 53
  calls `firehose.put_records_batch(...)`, but boto3's Firehose client offers
  `put_record_batch`. As written, that call raises `AttributeError` before
  any response exists, so lines 57-64 are never reached. On Python 2,
  `handler`'s eager `map` (line 21) makes this the first failure for any list
  that carries an image. `Dispatch` models lines 57-64 as if the call had
  returned a response.
- **The environment variable's name is misspelt.** The code reads
  `DYNAMNODB_IMAGE_TYPE`, so setting `DYNAMODB_IMAGE_TYPE` has no effect.
  The model keeps the name as written (`StreamRecords.CorrectSpellingIgnored`).

## Model

| member | source | states |
|---|---|---|
| StreamRecords.Selected | src/lambda_function/function.py:33-35 | the selected image of a record, when its `dynamodb` part has that key (the test at line 33, the lookup at line 35), and None otherwise |
| StreamRecords.Emit | src/lambda_function/function.py:33-45 | one record's effect on `kinesis_records`: `{'Data': data}` for its selected image when it has the key (line 33, the append at lines 41-45), nothing otherwise |
| StreamRecords.ImageSize | src/lambda_function/function.py:38 | what line 38 adds to `total_length` for one record: the length of its selected image, or 0 when it lacks one |
| StreamRecords.PrefixSize | src/lambda_function/function.py:38 | `total_length` after the first j records: the sum of the lengths of their selected images |
| StreamRecords.SelectImage | src/lambda_function/function.py:10 | the new image is chosen iff the variable is unset or exactly "NEW_IMAGE"; the old image iff it is set to anything else |
| StreamRecords.CorrectSpellingIgnored | src/lambda_function/function.py:10 | setting only the correctly spelt `DYNAMODB_IMAGE_TYPE` still selects the new image, because the key read is `DYNAMNODB_IMAGE_TYPE` |
| StreamRecords.Forwarded | src/lambda_function/function.py:32-45 | the reference output (each present selected image, in order) has at most one entry per record |
| StreamRecords.ForwardedPrefix | src/lambda_function/function.py:32-45 | what the first j records append has at most j entries |
| StreamRecords.ForwardedSingle | src/lambda_function/function.py:33-45 | a single record forwards exactly its selected image, or nothing when it lacks it |
| StreamRecords.ForwardedAppend | src/lambda_function/function.py:32-45 | forwarding distributes over concatenation, so record order is kept |
| StreamRecords.ForwardedSplit | src/lambda_function/function.py:32-49 | splitting the records at any point splits the output at the matching point |
| StreamRecords.ForwardedPrefixIsForwarded | src/lambda_function/function.py:32-45 | the record-by-record prefix equals the reference output of that prefix |
| StreamRecords.PrefixSizeIsTotalSize | src/lambda_function/function.py:38 | the running `total_length` over the records appended so far equals the summed length of those appended records |
| StreamRecords.PrefixMonotone | src/lambda_function/function.py:38-45 | longer prefixes forward at least as many records and at least as many bytes |
| StreamRecords.TotalSizeAppend | src/lambda_function/function.py:38 | sizes add up over concatenation |
| StreamRecords.ForwardedKeepsAll | src/lambda_function/function.py:33 | nothing is dropped iff every record carries the selected image |
| KinesisPass.Trips | src/lambda_function/function.py:38-40 | record j carries the image, and its length added to the running total before it reaches maxBytes: the break at line 40 |
| KinesisPass.Stops | src/lambda_function/function.py:32-48 | a pass that has consumed j records stops there: the list ends (line 32), record j trips the size break (lines 39-40), or maxCount records are held (lines 47-48) |
| KinesisPass.Chunk | src/lambda_function/function.py:29-45 | what `kinesis_records` holds after one pass: the selected images of the consumed records |
| KinesisPass.StopFrom | src/lambda_function/function.py:32-48 | returns the first stopping point at or after j: no earlier point from j stops, and the returned one does |
| KinesisPass.Consumed | src/lambda_function/function.py:32-48 | the records a pass consumes: the least point where the list ends, 500 records are held, or the next image trips the size limit |
| KinesisPass.ConsumedIsFirstStop | src/lambda_function/function.py:32-48 | any stopping point with no earlier stop is the consumed count |
| KinesisPass.PassContinues | src/lambda_function/function.py:38-46 | a record below both limits is consumed and the pass goes on past it |
| KinesisPass.PassTrips | src/lambda_function/function.py:38-40 | a record whose image brings the total to maxBytes or more ends the pass without being consumed |
| KinesisPass.PassFull | src/lambda_function/function.py:46-48 | a pass that holds maxCount records stops right there |
| KinesisPass.Pass | src/lambda_function/function.py:29-48 | the loop computes `count == Consumed` and `kinesis_records` equal to the selected images of the consumed records, with at most maxCount records and fewer than maxBytes bytes |
| KinesisPass.PrefixWithinLimits | src/lambda_function/function.py:38-48 | every prefix up to the stopping point stays within both limits, and is strictly below the record count before it |
| KinesisPass.ChunkWithinLimits | src/lambda_function/function.py:38-48 | one pass appends at most maxCount records totalling fewer than maxBytes bytes |
| KinesisPass.PassStalls | src/lambda_function/function.py:32-40 | a pass consumes nothing iff the list is empty or the first record alone reaches maxBytes |
| KinesisPass.OversizedNotConsumed | src/lambda_function/function.py:38-40 | a record whose image alone reaches maxBytes is never consumed by a pass |
| KinesisPass.CutoffRecordLeft | src/lambda_function/function.py:38-40 | a pass that ends early below the count limit left a record with the image, whose size would have brought the total to maxBytes or more |
| KinesisPass.CountCutoffRightAfterAppend | src/lambda_function/function.py:41-48 | a full pass stopped right after appending: its last consumed record carries the image |
| KinesisPass.SkippedRecordAddsNothing | src/lambda_function/function.py:33 | a record without the selected image changes neither the chunk nor the running total, and never trips the limit |
| KinesisPass.SkippedRecordConsumed | src/lambda_function/function.py:33-48 | a pass reaching a record without the selected image consumes it, unless the pass is already full |
| KinesisBatches.AllFitSuffix | src/lambda_function/function.py:49 | the records passed to the recursive call still all fit |
| KinesisBatches.Batches | src/lambda_function/function.py:26-49 | the recursion's result is exactly the in-order list of selected images: nothing reordered, repeated or lost |
| KinesisBatches.CreateKinesisBatches | src/lambda_function/function.py:26-49 | None or an empty list gives []; otherwise the result is `Batches` of the list |
| KinesisBatches.EarlyChunkNonEmpty | src/lambda_function/function.py:38-49 | when every record fits, a pass that ends before the list does appended at least one record |
| KinesisBatches.Chunks | src/lambda_function/function.py:29-49 | the per-pass chunks: none iff no records, each within both limits, and only the last may be empty |
| KinesisBatches.FlattenChunks | src/lambda_function/function.py:49 | the flat result is the concatenation of the per-pass chunks |
| StreamRecords.ForwardedPrefixHead | src/lambda_function/function.py:33-45 | when the first record carries the image, it heads every non-empty prefix's output |
| KinesisBatches.CutoffRecordStartsNextChunk | src/lambda_function/function.py:39-49 | the record that trips the size limit is the first record of the next chunk |
| KinesisBatches.OnePassUnderLimits | src/lambda_function/function.py:29-49 | when the whole output is under both limits, it comes out as a single chunk |
| KinesisBatches.UnderLimitsGoesOn | src/lambda_function/function.py:38-48 | under both limits overall, every record fits and no point before the end stops the pass |
| KinesisBatches.NoTripUnderBytes | src/lambda_function/function.py:38-40 | when everything forwarded is under maxBytes, every record fits and none trips the size limit |
| KinesisBatches.SinglePass | src/lambda_function/function.py:27-49 | a pass that consumes every record leaves an empty list to the recursive call, so its chunk is the only one |
| KinesisBatches.LaterPasses | src/lambda_function/function.py:49 | a pass that stops early is followed by the chunks of the records it left |
| KinesisBatches.PrefixEqualLength | src/lambda_function/function.py:33-46 | two prefixes forwarding equally many records forward the same records, and every record between them lacks the image |
| KinesisBatches.NoImagesNoPrefix | src/lambda_function/function.py:33 | without any selected image, no prefix forwards anything |
| KinesisBatches.NoImagesOneEmptyChunk | src/lambda_function/function.py:32-49 | records none of which carries the image make exactly one chunk, and it is empty |
| KinesisBatches.EmptyChunkLast | src/lambda_function/function.py:32-49 | a pass that stops early and leaves only records without the image is followed by exactly one more chunk, which is empty |
| KinesisBatches.CountLimitPass | src/lambda_function/function.py:38-48 | with exactly maxCount images under maxBytes, the first pass appends all of them, and it stops before the end iff the last record lacks the image |
| KinesisBatches.AtCountLimit | src/lambda_function/function.py:29-49 | with exactly maxCount images under maxBytes, the first chunk is everything forwarded, and a second, empty chunk follows iff the last record lacks the image |
| Termination.CallArgument | src/lambda_function/function.py:49 | the list the n-th nested call receives: the slice `dynamodb_records[count:]` of the previous call's argument, n times over, or the empty list once reached |
| Termination.CallArgumentIsSuffix | src/lambda_function/function.py:49 | every nested call receives a suffix of the original records |
| Termination.FitsTerminates | src/lambda_function/function.py:27-49 | when every record fits, the nested calls reach the empty list within as many calls as there are records |
| Termination.OversizedStays | src/lambda_function/function.py:38-49 | an oversized record remains in the argument of every nested call |
| Termination.OversizedLoops | src/lambda_function/function.py:38-49 | from the oversized record's position on, each nested call consumes nothing and passes the same list on |
| Termination.TerminatesIffAllFit | src/lambda_function/function.py:26-49 | the recursion ends iff every selected image is shorter than maxBytes |
| Scenarios.UniformPrefix | src/lambda_function/function.py:32-45 | j equal records forward j copies of total size j times the image size |
| Scenarios.UniformContinues | src/lambda_function/function.py:32-48 | equal records do not stop a pass before the m-th when m copies fit both limits |
| Scenarios.UniformPass | src/lambda_function/function.py:32-48 | with equal records, a pass takes maxCount of them, or all when there are fewer |
| Scenarios.FiveHundredOneRecords | src/lambda_function/function.py:29-49 | 501 ten-byte records make chunks of 500 and 1 |
| Scenarios.CutoffAfterFirstRecord | src/lambda_function/function.py:38-49 | images of 4000000, 200000 and 200000 bytes make the chunks [[first], [second, third]] |
| Scenarios.CountLimitThenEmptyChunk | src/lambda_function/function.py:29-49 | with a limit of 2 records, two images followed by a record without one make the chunks [[first, second], []] |
| Scenarios.RecordAtLimitRepeats | src/lambda_function/function.py:39-49 | a lone record of exactly 4194304 bytes is never consumed, and every nested call receives it again |
| Dispatch.FailedRequests | src/lambda_function/function.py:62 | the failed entries are exactly the responses that carry `ErrorCode`, and there are no more of them than responses |
| Dispatch.SucceededRequests | src/lambda_function/function.py:62 | the complement: exactly the responses without `ErrorCode` |
| Dispatch.FailedRequestsAppend | src/lambda_function/function.py:62 | the filter keeps response order and distributes over concatenation |
| Dispatch.RequestsPartition | src/lambda_function/function.py:62 | failed and succeeded entries together account for every response |
| Dispatch.PutRecordsBatchReport | src/lambda_function/function.py:57-64 | successes are the batch length minus `FailedPutCount`; a warning, with `FailedPutCount`, the batch length and the failed entries, is issued iff `FailedPutCount` is nonzero |
| Dispatch.ConsistentResponseReport | src/lambda_function/function.py:57-62 | for a response with one entry per record whose `FailedPutCount` counts the failed entries, the success count is the number of entries without `ErrorCode`, and no warning is issued iff none failed |

## Left out

- The Firehose client call (lines 53-56) is not modelled. `put_records_batch` is modelled only from the response on, which is an argument. As written, line 53 names `put_records_batch`, which boto3's Firehose client does not have (its method is `put_record_batch`), so the call raises `AttributeError`. `Dispatch` models lines 57-64 as if the call had returned a response.
- `TypeDeserializer`, `json.dumps` and `base64.b64encode` (lines 34-37) are not modelled. Each image is an opaque byte string `Blob`, standing for the encoded text. Only its length matters to the limits. It is the base64 length, without any delimiter.
- The model assumes that every record's encoding succeeds. In the source it can raise `TypeError`. `TypeDeserializer` turns `N` into `Decimal`, sets into `set` and `B` into `Binary`, and `json.dumps` rejects all three. On Python 3, `base64.b64encode` also rejects the `str` that `json.dumps` returns, so every image fails.
- Logging, `DELIVERY_STREAM_NAME` and the client set-up (lines 9, 11-14) are not modelled. The image choice of line 10 is modelled, with the environment as a map.
- `handler` (lines 17-23) is not modelled. It maps `put_records_batch` over the flat list of records that `create_kinesis_batches` returns, so each call would get a single record rather than a batch. In Python 3 `map` is lazy and never evaluated, so nothing is sent at all.
- Python's recursion depth limit is not modelled. The model's nested calls are unbounded. On Python 2, an oversized record, or a list needing about 1000 passes or more, ends the invocation with `RuntimeError: maximum recursion depth exceeded`. On Python 3 that limit is never reached: a list needs a second pass only if its records carry images, and line 37 raises `TypeError` on the first image. `Termination` characterises the oversized case only as the recursion never reaching its base case.
- KinesisBatches.CreateKinesisBatches: requires every selected image to be shorter than maxBytes. Without that the source never reaches its base case (on Python 2 it fails at the recursion limit; on Python 3 line 37 fails first), while a Dafny method must terminate. The non-terminating case is characterised instead by `Termination.TerminatesIffAllFit` and `Termination.OversizedLoops`.
- KinesisBatches.Batches: requires every image to fit, for the same reason.
- KinesisBatches.Chunks: requires every image to fit, for the same reason.
- KinesisPass.Pass: the limits are parameters (`Limits`) rather than the constants 500 and 4194304, which `SourceLimits` holds. `ValidLimits` requires both to be positive, which the source's constants are.
- The record count `count` and the running total are unbounded integers. Python's integers do not overflow either.

=== FILE: dispatch.dfy ===
/**
 * The bookkeeping of `put_records_batch` once Firehose has answered: the
 * number of successes it reports and the failed entries it warns about. The
 * call to Firehose is not modelled; its response is an argument.
 */
module Dispatch {

  import opened Wrappers
  import opened StreamRecords

  /** One entry of `RequestResponses`; a failed entry carries `ErrorCode`. */
  datatype RequestResponse = RequestResponse(
    recordId: Option<string>,
    errorCode: Option<string>,
    errorMessage: Option<string>)

  /** The part of Firehose's `PutRecordBatch` response the adapter reads. */
  datatype PutResponse = PutResponse(failedPutCount: int, requestResponses: seq<RequestResponse>)

  /** What the two warnings report: how many failed, out of how many, and which. */
  datatype Warning = Warning(failedCount: int, outOf: nat, failedRequests: seq<RequestResponse>)

  /** What `put_records_batch` logs: the success count, and a warning when something failed. */
  datatype Report = Report(succeeded: int, warning: Option<Warning>)

  /** The list comprehension of line 62: the entries that carry `ErrorCode`, in response order. */
  function FailedRequests(responses: seq<RequestResponse>): (failed: seq<RequestResponse>)
    ensures |failed| <= |responses|
    ensures forall x :: x in failed <==> x in responses && x.errorCode.Some?
  {
    if |responses| == 0 then []
    else (if responses[0].errorCode.Some? then [responses[0]] else []) + FailedRequests(responses[1..])
  }

  /** The entries without `ErrorCode`, the complement of `FailedRequests`. */
  function SucceededRequests(responses: seq<RequestResponse>): (ok: seq<RequestResponse>)
    ensures forall x :: x in ok <==> x in responses && x.errorCode.None?
  {
    if |responses| == 0 then []
    else (if responses[0].errorCode.None? then [responses[0]] else []) + SucceededRequests(responses[1..])
  }

  /** Filtering keeps the response order: it distributes over concatenation. */
  lemma {:induction false} FailedRequestsAppend(a: seq<RequestResponse>, b: seq<RequestResponse>)
    ensures FailedRequests(a + b) == FailedRequests(a) + FailedRequests(b)
  {
    if |a| == 0 {
      assert a + b == b;
    } else {
      assert (a + b)[1..] == a[1..] + b;
      FailedRequestsAppend(a[1..], b);
    }
  }

  /** Every entry is either failed or succeeded, so the two lists split the response. */
  lemma {:induction false} RequestsPartition(responses: seq<RequestResponse>)
    ensures |FailedRequests(responses)| + |SucceededRequests(responses)| == |responses|
  {
    if |responses| > 0 {
      RequestsPartition(responses[1..]);
    }
  }

  /**
   * Lines 57-64 without the network call: successes are the batch length less
   * `FailedPutCount`, and the warning, with the failed entries, is issued only
   * when `FailedPutCount` is nonzero.
   */
  function PutRecordsBatchReport(batch: seq<FirehoseRecord>, response: PutResponse): (r: Report)
    ensures r.succeeded + response.failedPutCount == |batch|
    ensures r.warning.Some? <==> response.failedPutCount != 0
    ensures r.warning.Some? ==> r.warning.value.failedCount == response.failedPutCount
    ensures r.warning.Some? ==> r.warning.value.outOf == |batch|
    ensures r.warning.Some? ==> r.warning.value.failedRequests == FailedRequests(response.requestResponses)
  {
    var succeeded := |batch| - response.failedPutCount;
    if response.failedPutCount != 0 then
      Report(succeeded, Some(Warning(response.failedPutCount, |batch|, FailedRequests(response.requestResponses))))
    else
      Report(succeeded, None)
  }

  /**
   * A response that answers every record once and counts its failed entries
   * in `FailedPutCount` makes the reported success count the number of
   * entries without `ErrorCode`.
   */
  lemma ConsistentResponseReport(batch: seq<FirehoseRecord>, response: PutResponse)
    requires |response.requestResponses| == |batch|
    requires response.failedPutCount == |FailedRequests(response.requestResponses)|
    ensures PutRecordsBatchReport(batch, response).succeeded == |SucceededRequests(response.requestResponses)|
    ensures PutRecordsBatchReport(batch, response).warning.None? <==> FailedRequests(response.requestResponses) == []
  {
    RequestsPartition(response.requestResponses);
  }
}

=== FILE: kinesis_batches.dfy ===
/**
 * The recursion of `create_kinesis_batches`: after one pass it calls itself on
 * the records the pass did not consume and prepends what the pass appended,
 * so the result is one flat list of Firehose records.
 */
module KinesisBatches {

  import opened Wrappers
  import opened StreamRecords
  import opened KinesisPass

  lemma AllFitSuffix(rs: seq<StreamRecord>, kind: ImageKind, lim: Limits, k: nat)
    requires AllFit(rs, kind, lim) && k <= |rs|
    ensures AllFit(rs[k..], kind, lim)
  {
    assert forall i :: 0 <= i < |rs| - k ==> rs[k..][i] == rs[k + i];
  }

  /**
   * The result of the recursion, which terminates when every record fits.
   * It is exactly the in-order list of selected images: nothing reordered,
   * repeated or lost.
   */
  function Batches(rs: seq<StreamRecord>, kind: ImageKind, lim: Limits): (out: seq<FirehoseRecord>)
    requires ValidLimits(lim) && AllFit(rs, kind, lim)
    ensures out == Forwarded(rs, kind)
    decreases |rs|
  {
    if |rs| == 0 then []
    else
      var k := Consumed(rs, kind, lim);
      PassStalls(rs, kind, lim);
      AllFitSuffix(rs, kind, lim, k);
      ForwardedSplit(rs, k, kind);
      ForwardedPrefixIsForwarded(rs, kind, k);
      Chunk(rs, kind, lim) + Batches(rs[k..], kind, lim)
  }

  /**
   * The model of `create_kinesis_batches` itself (lines 26-49), for an
   * argument that is None or a list.
   */
  method CreateKinesisBatches(dynamodbRecords: Option<seq<StreamRecord>>, kind: ImageKind, lim: Limits)
    returns (out: seq<FirehoseRecord>)
    requires ValidLimits(lim)
    requires dynamodbRecords.Some? ==> AllFit(dynamodbRecords.value, kind, lim)
    ensures dynamodbRecords.None? ==> out == []
    ensures dynamodbRecords.Some? ==> out == Batches(dynamodbRecords.value, kind, lim)
    decreases if dynamodbRecords.Some? then |dynamodbRecords.value| else 0
  {
    if dynamodbRecords.None? || |dynamodbRecords.value| == 0 {
      return [];
    }
    var records := dynamodbRecords.value;
    var kinesisRecords, count := Pass(records, kind, lim);
    PassStalls(records, kind, lim);
    AllFitSuffix(records, kind, lim, count);
    var rest := CreateKinesisBatches(Some(records[count..]), kind, lim);
    out := kinesisRecords + rest;
  }

  /** A pass that ends before the list does leaves a non-empty chunk behind it. */
  lemma EarlyChunkNonEmpty(rs: seq<StreamRecord>, kind: ImageKind, lim: Limits)
    requires ValidLimits(lim) && AllFit(rs, kind, lim)
    requires Consumed(rs, kind, lim) < |rs|
    ensures Chunk(rs, kind, lim) != []
  {
    var k := Consumed(rs, kind, lim);
    assert Stops(rs, kind, lim, k);
    assert Fits(rs[k], kind, lim);
    PrefixSizeIsTotalSize(rs, kind, k);
  }

  /**
   * The per-pass chunks, in the order the recursion produces them. Each obeys
   * both limits, and only the last may be empty (when the records after the
   * previous cutoff all lack the selected image).
   */
  function Chunks(rs: seq<StreamRecord>, kind: ImageKind, lim: Limits): (cs: seq<seq<FirehoseRecord>>)
    requires ValidLimits(lim) && AllFit(rs, kind, lim)
    ensures |cs| <= |rs|
    ensures |cs| == 0 <==> |rs| == 0
    ensures forall i :: 0 <= i < |cs| ==> |cs[i]| <= lim.maxCount && TotalSize(cs[i]) < lim.maxBytes
    ensures forall i :: 0 <= i < |cs| - 1 ==> cs[i] != []
    decreases |rs|
  {
    if |rs| == 0 then []
    else
      var k := Consumed(rs, kind, lim);
      PassStalls(rs, kind, lim);
      AllFitSuffix(rs, kind, lim, k);
      ChunkWithinLimits(rs, kind, lim);
      if k < |rs| then
        EarlyChunkNonEmpty(rs, kind, lim);
        [Chunk(rs, kind, lim)] + Chunks(rs[k..], kind, lim)
      else
        [Chunk(rs, kind, lim)]
  }

  function Flatten(cs: seq<seq<FirehoseRecord>>): seq<FirehoseRecord>
  {
    if |cs| == 0 then [] else cs[0] + Flatten(cs[1..])
  }

  /** The flat result is the concatenation of the per-pass chunks. */
  lemma {:induction false} FlattenChunks(rs: seq<StreamRecord>, kind: ImageKind, lim: Limits)
    requires ValidLimits(lim) && AllFit(rs, kind, lim)
    ensures Flatten(Chunks(rs, kind, lim)) == Batches(rs, kind, lim)
    decreases |rs|
  {
    if |rs| > 0 {
      var k := Consumed(rs, kind, lim);
      PassStalls(rs, kind, lim);
      AllFitSuffix(rs, kind, lim, k);
      var cs := Chunks(rs, kind, lim);
      if k < |rs| {
        FlattenChunks(rs[k..], kind, lim);
        assert cs[1..] == Chunks(rs[k..], kind, lim);
      } else {
        assert rs[k..] == [];
        assert cs[1..] == [];
      }
    }
  }

  /**
   * The record that trips the size limit is not lost: it is the first record
   * the next pass appends.
   */
  lemma CutoffRecordStartsNextChunk(rs: seq<StreamRecord>, kind: ImageKind, lim: Limits)
    requires ValidLimits(lim) && AllFit(rs, kind, lim)
    requires Consumed(rs, kind, lim) < |rs|
    requires |Chunk(rs, kind, lim)| != lim.maxCount
    ensures Selected(rs[Consumed(rs, kind, lim)], kind).Some?
    ensures |Chunks(rs, kind, lim)| >= 2 && Chunks(rs, kind, lim)[1] != []
    ensures Chunks(rs, kind, lim)[1][0] == FirehoseRecord(Selected(rs[Consumed(rs, kind, lim)], kind).value)
  {
    var k := Consumed(rs, kind, lim);
    CutoffRecordLeft(rs, kind, lim);
    var rest := rs[k..];
    AllFitSuffix(rs, kind, lim, k);
    PassStalls(rest, kind, lim);
    ForwardedPrefixHead(rest, kind, Selected(rs[k], kind).value, Consumed(rest, kind, lim));
    assert Chunks(rs, kind, lim)[1] == Chunk(rest, kind, lim);
  }

  /**
   * No loss under the limits: when everything forwarded is fewer than
   * `maxCount` records and under `maxBytes` in total, one pass takes it all.
   */
  lemma OnePassUnderLimits(rs: seq<StreamRecord>, kind: ImageKind, lim: Limits)
    requires ValidLimits(lim) && |rs| > 0
    requires |Forwarded(rs, kind)| < lim.maxCount
    requires TotalSize(Forwarded(rs, kind)) < lim.maxBytes
    ensures AllFit(rs, kind, lim)
    ensures Chunks(rs, kind, lim) == [Forwarded(rs, kind)]
  {
    var n := |rs|;
    assert rs[..n] == rs;
    ForwardedPrefixIsForwarded(rs, kind, n);
    PrefixSizeIsTotalSize(rs, kind, n);
    forall j | 0 <= j < n ensures Fits(rs[j], kind, lim) && !Stops(rs, kind, lim, j) {
      UnderLimitsGoesOn(rs, kind, lim, j);
    }
    ConsumedIsFirstStop(rs, kind, lim, n);
  }

  /** Under both limits overall, every record fits and no point before the end stops a pass. */
  lemma UnderLimitsGoesOn(rs: seq<StreamRecord>, kind: ImageKind, lim: Limits, j: nat)
    requires j < |rs|
    requires |ForwardedPrefix(rs, kind, |rs|)| < lim.maxCount
    requires PrefixSize(rs, kind, |rs|) < lim.maxBytes
    ensures Fits(rs[j], kind, lim) && !Stops(rs, kind, lim, j)
  {
    PrefixMonotone(rs, kind, j, |rs|);
    NoTripUnderBytes(rs, kind, lim, j);
  }

  /** When everything the records forward is under `maxBytes`, no record trips the size limit. */
  lemma NoTripUnderBytes(rs: seq<StreamRecord>, kind: ImageKind, lim: Limits, j: nat)
    requires j < |rs|
    requires PrefixSize(rs, kind, |rs|) < lim.maxBytes
    ensures Fits(rs[j], kind, lim) && !Trips(rs, kind, lim, j)
  {
    PrefixMonotone(rs, kind, j + 1, |rs|);
  }

  /** A pass that consumes every record is the only pass. */
  lemma SinglePass(rs: seq<StreamRecord>, kind: ImageKind, lim: Limits)
    requires ValidLimits(lim) && AllFit(rs, kind, lim) && |rs| > 0
    requires Consumed(rs, kind, lim) == |rs|
    ensures Chunks(rs, kind, lim) == [Chunk(rs, kind, lim)]
  {
  }

  /** A pass that stops early is followed by the passes over the rest. */
  lemma LaterPasses(rs: seq<StreamRecord>, kind: ImageKind, lim: Limits)
    requires ValidLimits(lim) && AllFit(rs, kind, lim)
    requires Consumed(rs, kind, lim) < |rs|
    ensures AllFit(rs[Consumed(rs, kind, lim)..], kind, lim)
    ensures Chunks(rs, kind, lim) == [Chunk(rs, kind, lim)] + Chunks(rs[Consumed(rs, kind, lim)..], kind, lim)
  {
    AllFitSuffix(rs, kind, lim, Consumed(rs, kind, lim));
  }

  /**
   * Two prefixes that forward equally many records forward the same records:
   * the records between them all lack the selected image.
   */
  lemma {:induction false} PrefixEqualLength(rs: seq<StreamRecord>, kind: ImageKind, i: nat, j: nat)
    requires i <= j <= |rs|
    requires |ForwardedPrefix(rs, kind, i)| == |ForwardedPrefix(rs, kind, j)|
    ensures ForwardedPrefix(rs, kind, i) == ForwardedPrefix(rs, kind, j)
    ensures forall m :: i <= m < j ==> Selected(rs[m], kind).None?
    decreases j
  {
    if i < j {
      PrefixMonotone(rs, kind, i, j - 1);
      PrefixEqualLength(rs, kind, i, j - 1);
      assert Emit(rs[j - 1], kind) == [];
    }
  }

  /** Records none of which carries the selected image are consumed by one pass that appends nothing. */
  lemma NoImagesOneEmptyChunk(rs: seq<StreamRecord>, kind: ImageKind, lim: Limits)
    requires ValidLimits(lim) && |rs| > 0
    requires forall i :: 0 <= i < |rs| ==> Selected(rs[i], kind).None?
    ensures AllFit(rs, kind, lim)
    ensures Chunks(rs, kind, lim) == [[]]
  {
    var n := |rs|;
    forall j | 0 <= j <= n ensures ForwardedPrefix(rs, kind, j) == [] {
      NoImagesNoPrefix(rs, kind, j);
    }
    ConsumedIsFirstStop(rs, kind, lim, n);
    SinglePass(rs, kind, lim);
  }

  /** Without any selected image, every prefix forwards nothing. */
  lemma {:induction false} NoImagesNoPrefix(rs: seq<StreamRecord>, kind: ImageKind, j: nat)
    requires j <= |rs|
    requires forall i :: 0 <= i < |rs| ==> Selected(rs[i], kind).None?
    ensures ForwardedPrefix(rs, kind, j) == []
  {
    if j > 0 {
      NoImagesNoPrefix(rs, kind, j - 1);
    }
  }

  /**
   * A pass that stops early and leaves only records without the selected
   * image is followed by one more pass, which appends nothing.
   */
  lemma EmptyChunkLast(rs: seq<StreamRecord>, kind: ImageKind, lim: Limits)
    requires ValidLimits(lim) && AllFit(rs, kind, lim)
    requires Consumed(rs, kind, lim) < |rs|
    requires forall m :: Consumed(rs, kind, lim) <= m < |rs| ==> Selected(rs[m], kind).None?
    ensures Chunks(rs, kind, lim) == [Chunk(rs, kind, lim), []]
  {
    var k := Consumed(rs, kind, lim);
    LaterPasses(rs, kind, lim);
    var rest := rs[k..];
    forall i | 0 <= i < |rest| ensures Selected(rest[i], kind).None? {
      assert rest[i] == rs[k + i];
    }
    NoImagesOneEmptyChunk(rest, kind, lim);
  }

  /**
   * The pass at the count boundary: with exactly `maxCount` images under
   * `maxBytes` in total, the first pass appends all of them, and it stops
   * before the end exactly when the last record lacks the selected image;
   * the records it then leaves all lack it too.
   */
  lemma CountLimitPass(rs: seq<StreamRecord>, kind: ImageKind, lim: Limits)
    requires ValidLimits(lim) && |rs| > 0
    requires |ForwardedPrefix(rs, kind, |rs|)| == lim.maxCount
    requires PrefixSize(rs, kind, |rs|) < lim.maxBytes
    ensures AllFit(rs, kind, lim)
    ensures Chunk(rs, kind, lim) == ForwardedPrefix(rs, kind, |rs|)
    ensures Consumed(rs, kind, lim) < |rs| <==> Selected(rs[|rs| - 1], kind).None?
    ensures forall m :: Consumed(rs, kind, lim) <= m < |rs| ==> Selected(rs[m], kind).None?
  {
    var n := |rs|;
    forall j | 0 <= j < n ensures Fits(rs[j], kind, lim) && !Trips(rs, kind, lim, j) {
      NoTripUnderBytes(rs, kind, lim, j);
    }
    var k := Consumed(rs, kind, lim);
    PrefixMonotone(rs, kind, k, n);
    if k < n {
      assert Stops(rs, kind, lim, k);
    } else {
      assert !Stops(rs, kind, lim, n - 1);
    }
    PrefixEqualLength(rs, kind, k, n);
  }

  /**
   * The count boundary: when the records forward exactly `maxCount` images
   * under `maxBytes` in total, the first pass takes all of them. A second,
   * empty, chunk follows exactly when the last record lacks the selected
   * image, since the pass stops as soon as it holds `maxCount` records,
   * before reaching the records after the last image.
   */
  lemma AtCountLimit(rs: seq<StreamRecord>, kind: ImageKind, lim: Limits)
    requires ValidLimits(lim)
    requires |Forwarded(rs, kind)| == lim.maxCount
    requires TotalSize(Forwarded(rs, kind)) < lim.maxBytes
    ensures AllFit(rs, kind, lim)
    ensures 0 < |Chunks(rs, kind, lim)| <= 2
    ensures Chunks(rs, kind, lim)[0] == Forwarded(rs, kind)
    ensures |Chunks(rs, kind, lim)| == 2 <==> Selected(rs[|rs| - 1], kind).None?
    ensures |Chunks(rs, kind, lim)| == 2 ==> Chunks(rs, kind, lim)[1] == []
  {
    var n := |rs|;
    assert rs[..n] == rs;
    ForwardedPrefixIsForwarded(rs, kind, n);
    PrefixSizeIsTotalSize(rs, kind, n);
    CountLimitPass(rs, kind, lim);
    var k := Consumed(rs, kind, lim);
    if k < n {
      EmptyChunkLast(rs, kind, lim);
    } else {
      SinglePass(rs, kind, lim);
    }
  }
}
=== FILE: kinesis_pass.dfy ===
/**
 * One pass of `create_kinesis_batches`: the `for` loop that walks the stream
 * records, appends each selected image to the current chunk and stops at the
 * record-count or the byte-size limit.
 */
module KinesisPass {

  import opened Wrappers
  import opened StreamRecords

  /** The two limits of a pass: at most `maxCount` records, fewer than `maxBytes` bytes. */
  datatype Limits = Limits(maxCount: nat, maxBytes: nat)

  /** The limits the adapter uses: 500 records and 4194304 bytes (4 MiB). */
  const SourceLimits: Limits := Limits(500, 4194304)

  predicate ValidLimits(lim: Limits)
  {
    lim.maxCount > 0 && lim.maxBytes > 0
  }

  /**
   * Record `j` trips the size limit: it carries the selected image, and its
   * length added to the running total of the records before it reaches
   * `maxBytes`.
   */
  predicate Trips(rs: seq<StreamRecord>, kind: ImageKind, lim: Limits, j: nat)
    requires j < |rs|
  {
    match Selected(rs[j], kind)
    case None => false
    case Some(d) => PrefixSize(rs, kind, j) + |d| >= lim.maxBytes
  }

  /**
   * A pass that has consumed the first `j` records stops there: the list is
   * exhausted, `maxCount` records have been appended, or record `j` trips the
   * size limit.
   */
  predicate Stops(rs: seq<StreamRecord>, kind: ImageKind, lim: Limits, j: nat)
    requires j <= |rs|
  {
    j == |rs| || |ForwardedPrefix(rs, kind, j)| == lim.maxCount || Trips(rs, kind, lim, j)
  }

  /** The first stopping point at or after `j`. */
  function StopFrom(rs: seq<StreamRecord>, kind: ImageKind, lim: Limits, j: nat): (k: nat)
    requires j <= |rs|
    ensures j <= k <= |rs| && Stops(rs, kind, lim, k)
    ensures forall i :: j <= i < k ==> !Stops(rs, kind, lim, i)
    decreases |rs| - j
  {
    if Stops(rs, kind, lim, j) then j else StopFrom(rs, kind, lim, j + 1)
  }

  /**
   * The specification of a pass: the number of records it consumes (`count`
   * at the end of the loop) is the first point at which it stops.
   */
  function Consumed(rs: seq<StreamRecord>, kind: ImageKind, lim: Limits): (k: nat)
    ensures k <= |rs| && Stops(rs, kind, lim, k)
    ensures forall i :: 0 <= i < k ==> !Stops(rs, kind, lim, i)
  {
    StopFrom(rs, kind, lim, 0)
  }

  /** The records one pass appends: the selected images of the records it consumes. */
  function Chunk(rs: seq<StreamRecord>, kind: ImageKind, lim: Limits): seq<FirehoseRecord>
  {
    ForwardedPrefix(rs, kind, Consumed(rs, kind, lim))
  }

  /** The least stopping point is unique. */
  lemma ConsumedIsFirstStop(rs: seq<StreamRecord>, kind: ImageKind, lim: Limits, k: nat)
    requires k <= |rs| && Stops(rs, kind, lim, k)
    requires forall i :: 0 <= i < k ==> !Stops(rs, kind, lim, i)
    ensures Consumed(rs, kind, lim) == k
  {
  }

  /** A pass that reaches record `j` below the count limit and is not tripped by it goes past it. */
  lemma PassContinues(rs: seq<StreamRecord>, kind: ImageKind, lim: Limits, j: nat)
    requires j < |rs| && j <= Consumed(rs, kind, lim)
    requires |ForwardedPrefix(rs, kind, j)| < lim.maxCount
    requires PrefixSize(rs, kind, j) + ImageSize(rs[j], kind) < lim.maxBytes
    ensures j < Consumed(rs, kind, lim)
  {
    assert !Stops(rs, kind, lim, j);
  }

  /** A pass that reaches record `j` and is tripped by it stops there. */
  lemma PassTrips(rs: seq<StreamRecord>, kind: ImageKind, lim: Limits, j: nat)
    requires j < |rs| && j <= Consumed(rs, kind, lim) && Selected(rs[j], kind).Some?
    requires PrefixSize(rs, kind, j) + ImageSize(rs[j], kind) >= lim.maxBytes
    ensures Consumed(rs, kind, lim) == j
  {
    assert Trips(rs, kind, lim, j);
    assert Stops(rs, kind, lim, j);
  }

  /** A pass that has appended `maxCount` records after consuming `j` stops there. */
  lemma PassFull(rs: seq<StreamRecord>, kind: ImageKind, lim: Limits, j: nat)
    requires j <= |rs| && j <= Consumed(rs, kind, lim)
    requires |ForwardedPrefix(rs, kind, j)| == lim.maxCount
    ensures Consumed(rs, kind, lim) == j
  {
    assert Stops(rs, kind, lim, j);
  }

  /**
   * The loop of lines 29-48. `count` is also the position of the loop's
   * iterator, since each iteration that does not break advances it by one.
   */
  method Pass(records: seq<StreamRecord>, kind: ImageKind, lim: Limits)
    returns (kinesisRecords: seq<FirehoseRecord>, count: nat)
    requires ValidLimits(lim)
    ensures count == Consumed(records, kind, lim)
    ensures kinesisRecords == ForwardedPrefix(records, kind, count)
    ensures |kinesisRecords| <= lim.maxCount
    ensures TotalSize(kinesisRecords) < lim.maxBytes
  {
    kinesisRecords := [];
    count := 0;
    var totalLength := 0;
    while count < |records|
      invariant count <= Consumed(records, kind, lim)
      invariant kinesisRecords == ForwardedPrefix(records, kind, count)
      invariant totalLength == PrefixSize(records, kind, count) < lim.maxBytes
      invariant |kinesisRecords| < lim.maxCount
    {
      var image := Selected(records[count], kind);
      if image.Some? {
        var data := image.value;
        totalLength := totalLength + |data|;
        if totalLength >= lim.maxBytes {
          PassTrips(records, kind, lim, count);
          break;
        }
        kinesisRecords := kinesisRecords + [FirehoseRecord(data)];
      }
      PassContinues(records, kind, lim, count);
      count := count + 1;
      if |kinesisRecords| == lim.maxCount {
        PassFull(records, kind, lim, count);
        break;
      }
    }
    PrefixSizeIsTotalSize(records, kind, count);
  }

  /** A record fits when it lacks the selected image or its image is shorter than `maxBytes`. */
  predicate Fits(r: StreamRecord, kind: ImageKind, lim: Limits)
  {
    match Selected(r, kind)
    case None => true
    case Some(d) => |d| < lim.maxBytes
  }

  predicate AllFit(rs: seq<StreamRecord>, kind: ImageKind, lim: Limits)
  {
    forall i :: 0 <= i < |rs| ==> Fits(rs[i], kind, lim)
  }

  /**
   * Every prefix a pass builds stays within both limits; before the stopping
   * point it is strictly below the record count.
   */
  lemma {:induction false} PrefixWithinLimits(rs: seq<StreamRecord>, kind: ImageKind, lim: Limits, i: nat)
    requires ValidLimits(lim) && i <= Consumed(rs, kind, lim)
    ensures |ForwardedPrefix(rs, kind, i)| <= lim.maxCount
    ensures PrefixSize(rs, kind, i) < lim.maxBytes
    ensures i < Consumed(rs, kind, lim) ==> |ForwardedPrefix(rs, kind, i)| < lim.maxCount
  {
    if i > 0 {
      PrefixWithinLimits(rs, kind, lim, i - 1);
      assert !Stops(rs, kind, lim, i - 1);
    }
    if i < Consumed(rs, kind, lim) {
      assert !Stops(rs, kind, lim, i);
    }
  }

  /** One pass appends at most `maxCount` records whose sizes sum to less than `maxBytes`. */
  lemma ChunkWithinLimits(rs: seq<StreamRecord>, kind: ImageKind, lim: Limits)
    requires ValidLimits(lim)
    ensures |Chunk(rs, kind, lim)| <= lim.maxCount
    ensures TotalSize(Chunk(rs, kind, lim)) < lim.maxBytes
  {
    var k := Consumed(rs, kind, lim);
    PrefixWithinLimits(rs, kind, lim, k);
    PrefixSizeIsTotalSize(rs, kind, k);
  }

  /**
   * A pass consumes nothing exactly when the list is empty or its first record
   * alone reaches `maxBytes`: then `count` stays 0.
   */
  lemma PassStalls(rs: seq<StreamRecord>, kind: ImageKind, lim: Limits)
    requires ValidLimits(lim)
    ensures Consumed(rs, kind, lim) == 0 <==> |rs| == 0 || !Fits(rs[0], kind, lim)
  {
    if Consumed(rs, kind, lim) == 0 {
      assert Stops(rs, kind, lim, 0);
    } else {
      assert !Stops(rs, kind, lim, 0);
    }
  }

  /** A record that alone reaches `maxBytes` is never consumed: the pass stops at it or earlier. */
  lemma OversizedNotConsumed(rs: seq<StreamRecord>, kind: ImageKind, lim: Limits, i: nat)
    requires i < |rs| && !Fits(rs[i], kind, lim)
    ensures Consumed(rs, kind, lim) <= i
  {
    assert Trips(rs, kind, lim, i);
    assert Stops(rs, kind, lim, i);
  }

  /**
   * The size cutoff: when a pass ends before the list does and below the record
   * count, the first record it leaves carries the selected image, and adding
   * that image would have brought the total to `maxBytes` or more.
   */
  lemma CutoffRecordLeft(rs: seq<StreamRecord>, kind: ImageKind, lim: Limits)
    requires Consumed(rs, kind, lim) < |rs|
    requires |Chunk(rs, kind, lim)| != lim.maxCount
    ensures Selected(rs[Consumed(rs, kind, lim)], kind).Some?
    ensures TotalSize(Chunk(rs, kind, lim)) + |Selected(rs[Consumed(rs, kind, lim)], kind).value| >= lim.maxBytes
  {
    var k := Consumed(rs, kind, lim);
    assert Trips(rs, kind, lim, k);
    PrefixSizeIsTotalSize(rs, kind, k);
  }

  /**
   * The count cutoff: a pass that holds `maxCount` records stopped right after
   * appending the last of them, so its last consumed record carries an image.
   */
  lemma CountCutoffRightAfterAppend(rs: seq<StreamRecord>, kind: ImageKind, lim: Limits)
    requires ValidLimits(lim)
    requires |Chunk(rs, kind, lim)| == lim.maxCount
    ensures Consumed(rs, kind, lim) > 0
    ensures Selected(rs[Consumed(rs, kind, lim) - 1], kind).Some?
  {
    var k := Consumed(rs, kind, lim);
    assert k > 0;
    if Selected(rs[k - 1], kind).None? {
      assert Stops(rs, kind, lim, k - 1);
      assert false;
    }
  }

  /**
   * A record without the selected image adds nothing to what the pass holds
   * or to its running total, and never trips the size limit.
   */
  lemma SkippedRecordAddsNothing(rs: seq<StreamRecord>, kind: ImageKind, lim: Limits, j: nat)
    requires j < |rs| && Selected(rs[j], kind).None?
    ensures ForwardedPrefix(rs, kind, j + 1) == ForwardedPrefix(rs, kind, j)
    ensures PrefixSize(rs, kind, j + 1) == PrefixSize(rs, kind, j)
    ensures !Trips(rs, kind, lim, j)
  {
  }

  /**
   * A pass reaching a record without the selected image consumes it, unless it
   * already holds `maxCount` records.
   */
  lemma SkippedRecordConsumed(rs: seq<StreamRecord>, kind: ImageKind, lim: Limits, j: nat)
    requires j < |rs| && Selected(rs[j], kind).None?
    requires forall i :: 0 <= i < j ==> !Stops(rs, kind, lim, i)
    requires |ForwardedPrefix(rs, kind, j)| != lim.maxCount
    ensures Consumed(rs, kind, lim) > j
  {
    assert !Stops(rs, kind, lim, j);
  }
}

=== FILE: scenarios.dfy ===
/**
 * Worked cases of `create_kinesis_batches`, forwarding the new image, mostly
 * with the adapter's own limits (500 records, 4194304 bytes).
 */
module Scenarios {

  import opened Wrappers
  import opened StreamRecords
  import opened KinesisPass
  import opened KinesisBatches
  import opened Termination

  /** A stream record that carries only a new image, encoded as `d`. */
  function Inserted(d: Blob): StreamRecord
  {
    StreamRecord(Some(d), None)
  }

  /** Every prefix of a list whose records all carry the same image `d` forwards one copy per record. */
  lemma {:induction false} UniformPrefix(rs: seq<StreamRecord>, kind: ImageKind, d: Blob, j: nat)
    requires forall i :: 0 <= i < |rs| ==> Selected(rs[i], kind) == Some(d)
    requires j <= |rs|
    ensures |ForwardedPrefix(rs, kind, j)| == j
    ensures PrefixSize(rs, kind, j) == j * |d|
  {
    if j > 0 {
      UniformPrefix(rs, kind, d, j - 1);
      assert (j - 1) * |d| + |d| == j * |d|;
    }
  }

  /** Multiplying by the image size keeps order; the uniform-record lemmas need it to compare totals. */
  lemma {:induction false} ScaleMonotone(a: nat, b: nat, c: nat)
    requires a <= b
    ensures a * c <= b * c
    decreases b - a
  {
    if a < b {
      ScaleMonotone(a, b - 1, c);
      assert (b - 1) * c + c == b * c;
    }
  }

  /** Before `m` records, where `m` copies still fit, a pass over equal records does not stop. */
  lemma UniformContinues(rs: seq<StreamRecord>, kind: ImageKind, lim: Limits, d: Blob, m: nat, j: nat)
    requires forall i :: 0 <= i < |rs| ==> Selected(rs[i], kind) == Some(d)
    requires j < m <= |rs| && m <= lim.maxCount && m * |d| < lim.maxBytes
    ensures !Stops(rs, kind, lim, j)
  {
    UniformPrefix(rs, kind, d, j);
    ScaleMonotone(j + 1, m, |d|);
    assert j * |d| + |d| == (j + 1) * |d|;
  }

  /**
   * With records of one size whose `maxCount` copies fit, a pass takes
   * `maxCount` records, or all of them when there are fewer.
   */
  lemma UniformPass(rs: seq<StreamRecord>, kind: ImageKind, lim: Limits, d: Blob)
    requires ValidLimits(lim) && |rs| > 0
    requires forall i :: 0 <= i < |rs| ==> Selected(rs[i], kind) == Some(d)
    requires (if |rs| < lim.maxCount then |rs| else lim.maxCount) * |d| < lim.maxBytes
    ensures AllFit(rs, kind, lim)
    ensures Consumed(rs, kind, lim) == (if |rs| < lim.maxCount then |rs| else lim.maxCount)
    ensures |Chunk(rs, kind, lim)| == Consumed(rs, kind, lim)
  {
    var m := if |rs| < lim.maxCount then |rs| else lim.maxCount;
    forall j | 0 <= j < m ensures !Stops(rs, kind, lim, j) {
      UniformContinues(rs, kind, lim, d, m, j);
    }
    UniformPrefix(rs, kind, d, m);
    ConsumedIsFirstStop(rs, kind, lim, m);
    ScaleMonotone(1, m, |d|);
  }

  /** 501 records of 10 bytes each make two chunks, of 500 and of 1 record. */
  lemma FiveHundredOneRecords(rs: seq<StreamRecord>, d: Blob)
    requires |rs| == 501 && |d| == 10
    requires forall i :: 0 <= i < |rs| ==> rs[i] == Inserted(d)
    ensures AllFit(rs, NewImage, SourceLimits)
    ensures |Chunks(rs, NewImage, SourceLimits)| == 2
    ensures |Chunks(rs, NewImage, SourceLimits)[0]| == 500
    ensures |Chunks(rs, NewImage, SourceLimits)[1]| == 1
  {
    UniformPass(rs, NewImage, SourceLimits, d);
    var rest := rs[500..];
    UniformPass(rest, NewImage, SourceLimits, d);
    assert rest[1..] == [];
  }

  /**
   * Images of 4000000, 200000 and 200000 bytes: the second would bring the
   * total to 4200000, past the limit, so the first chunk holds only the first
   * image and the other two make the second chunk.
   */
  lemma CutoffAfterFirstRecord(a: Blob, b: Blob, c: Blob)
    requires |a| == 4000000 && |b| == 200000 && |c| == 200000
    ensures AllFit([Inserted(a), Inserted(b), Inserted(c)], NewImage, SourceLimits)
    ensures Chunks([Inserted(a), Inserted(b), Inserted(c)], NewImage, SourceLimits)
         == [[FirehoseRecord(a)], [FirehoseRecord(b), FirehoseRecord(c)]]
  {
    var rs := [Inserted(a), Inserted(b), Inserted(c)];
    var rest := [Inserted(b), Inserted(c)];
    assert rs[1..] == rest;
    // The first pass: the first image fits, the second would cross the limit.
    assert !Stops(rs, NewImage, SourceLimits, 0);
    assert Trips(rs, NewImage, SourceLimits, 1);
    ConsumedIsFirstStop(rs, NewImage, SourceLimits, 1);
    assert Chunk(rs, NewImage, SourceLimits) == [FirehoseRecord(a)];
    // The second pass takes the remaining two in one chunk.
    ForwardedSingle(Inserted(b), NewImage);
    ForwardedSingle(Inserted(c), NewImage);
    ForwardedAppend([Inserted(b)], [Inserted(c)], NewImage);
    assert [Inserted(b)] + [Inserted(c)] == rest;
    var out := [FirehoseRecord(b), FirehoseRecord(c)];
    assert Forwarded(rest, NewImage) == out;
    TotalSizeAppend([FirehoseRecord(b)], [FirehoseRecord(c)]);
    assert [FirehoseRecord(b)] + [FirehoseRecord(c)] == out;
    OnePassUnderLimits(rest, NewImage, SourceLimits);
    assert Fits(rs[0], NewImage, SourceLimits);
    assert AllFit(rs, NewImage, SourceLimits);
  }

  /**
   * With a limit of two records, two images followed by a record without one:
   * the first pass stops on holding two records, before the third, and the
   * next pass consumes the third and appends nothing.
   */
  lemma CountLimitThenEmptyChunk(a: Blob, b: Blob)
    requires |a| == 10 && |b| == 10
    ensures Chunks([Inserted(a), Inserted(b), StreamRecord(None, None)], NewImage, Limits(2, 100))
         == [[FirehoseRecord(a), FirehoseRecord(b)], []]
  {
    var rs := [Inserted(a), Inserted(b), StreamRecord(None, None)];
    assert rs[..2] == [Inserted(a), Inserted(b)] && rs[..2][..1] == [Inserted(a)];
    ForwardedSingle(Inserted(a), NewImage);
    var out := [FirehoseRecord(a), FirehoseRecord(b)];
    assert Forwarded(rs, NewImage) == out;
    TotalSizeAppend([FirehoseRecord(a)], [FirehoseRecord(b)]);
    assert [FirehoseRecord(a)] + [FirehoseRecord(b)] == out;
    AtCountLimit(rs, NewImage, Limits(2, 100));
  }

  /**
   * A single record whose image is exactly 4194304 bytes: the pass consumes
   * nothing and every nested call receives that same record again.
   */
  lemma RecordAtLimitRepeats(d: Blob, n: nat)
    requires |d| == 4194304
    ensures Consumed([Inserted(d)], NewImage, SourceLimits) == 0
    ensures CallArgument([Inserted(d)], NewImage, SourceLimits, n) == [Inserted(d)]
    decreases n
  {
    PassStalls([Inserted(d)], NewImage, SourceLimits);
    if n > 0 {
      assert [Inserted(d)][0..] == [Inserted(d)];
      RecordAtLimitRepeats(d, n - 1);
    }
  }
}

=== FILE: stream_records.dfy ===
/**
 * The values that flow through the adapter: DynamoDB stream records (each
 * image already reduced to the encoded text the adapter would send), the
 * records handed to Firehose, and the choice of image made at start-up.
 */
module StreamRecords {

  import opened Wrappers

  /** The base64 text of one JSON-encoded image; its length is what the limits count. */
  type Blob = seq<bv8>

  /** Which image of a stream record is forwarded. */
  datatype ImageKind = NewImage | OldImage

  /** The environment variable the image choice is read from, spelt as the source spells it. */
  const ImageTypeVariable: string := "DYNAMNODB_IMAGE_TYPE"

  /** The value of that variable that selects the new image; also its default. */
  const NewImageSetting: string := "NEW_IMAGE"

  /**
   * The image choice made at import time: the new image when the variable is
   * unset or is exactly "NEW_IMAGE", the old image for every other value.
   */
  function SelectImage(env: map<string, string>): (kind: ImageKind)
    ensures kind == NewImage <==> ImageTypeVariable !in env || env[ImageTypeVariable] == NewImageSetting
    ensures kind == OldImage <==> ImageTypeVariable in env && env[ImageTypeVariable] != NewImageSetting
  {
    var setting := if ImageTypeVariable in env then env[ImageTypeVariable] else NewImageSetting;
    if setting == NewImageSetting then NewImage else OldImage
  }

  /**
   * Because the variable's name is misspelt, setting the correctly spelt
   * `DYNAMODB_IMAGE_TYPE` has no effect: the new image is still forwarded.
   */
  lemma CorrectSpellingIgnored(value: string)
    ensures SelectImage(map["DYNAMODB_IMAGE_TYPE" := value]) == NewImage
  {
    assert ImageTypeVariable != "DYNAMODB_IMAGE_TYPE";
  }

  /**
   * The `dynamodb` part of a stream record: each image, when the record has
   * it, stands for the encoded text of that image.
   */
  datatype StreamRecord = StreamRecord(newImage: Option<Blob>, oldImage: Option<Blob>)

  /** The encoded selected image of a record, or None when the record lacks it. */
  function Selected(r: StreamRecord, kind: ImageKind): Option<Blob>
  {
    match kind
    case NewImage => r.newImage
    case OldImage => r.oldImage
  }

  /** One entry of the list given to Firehose: `{'Data': data}`. */
  datatype FirehoseRecord = FirehoseRecord(data: Blob)

  /** What one stream record contributes to the output: its selected image, if any. */
  function Emit(r: StreamRecord, kind: ImageKind): seq<FirehoseRecord>
  {
    match Selected(r, kind)
    case Some(d) => [FirehoseRecord(d)]
    case None => []
  }

  /**
   * The reference definition of what the adapter forwards: the selected image
   * of every record that has one, in record order, each once.
   */
  function Forwarded(rs: seq<StreamRecord>, kind: ImageKind): (out: seq<FirehoseRecord>)
    ensures |out| <= |rs|
  {
    if |rs| == 0 then [] else Forwarded(rs[..|rs| - 1], kind) + Emit(rs[|rs| - 1], kind)
  }

  /**
   * What the first `j` records forward, built one record at a time as a pass
   * builds it; equal to `Forwarded(rs[..j], kind)`.
   */
  function ForwardedPrefix(rs: seq<StreamRecord>, kind: ImageKind, j: nat): (out: seq<FirehoseRecord>)
    requires j <= |rs|
    ensures |out| <= j
  {
    if j == 0 then [] else ForwardedPrefix(rs, kind, j - 1) + Emit(rs[j - 1], kind)
  }

  /** The length a record adds to the running total: that of its selected image, or nothing. */
  function ImageSize(r: StreamRecord, kind: ImageKind): nat
  {
    match Selected(r, kind)
    case Some(d) => |d|
    case None => 0
  }

  /** The running total over the first `j` records, as `total_length` accumulates it. */
  function PrefixSize(rs: seq<StreamRecord>, kind: ImageKind, j: nat): nat
    requires j <= |rs|
  {
    if j == 0 then 0 else PrefixSize(rs, kind, j - 1) + ImageSize(rs[j - 1], kind)
  }

  /** The summed encoded length of a list of Firehose records. */
  function TotalSize(xs: seq<FirehoseRecord>): nat
  {
    if |xs| == 0 then 0 else TotalSize(xs[..|xs| - 1]) + |xs[|xs| - 1].data|
  }

  /** A single record forwards exactly its own contribution. */
  lemma ForwardedSingle(r: StreamRecord, kind: ImageKind)
    ensures Forwarded([r], kind) == Emit(r, kind)
  {
    assert [r][..0] == [];
  }

  /** Forwarding distributes over concatenation: the output keeps the input's order. */
  lemma {:induction false} ForwardedAppend(a: seq<StreamRecord>, b: seq<StreamRecord>, kind: ImageKind)
    ensures Forwarded(a + b, kind) == Forwarded(a, kind) + Forwarded(b, kind)
  {
    if |b| == 0 {
      assert a + b == a;
    } else {
      var b' := b[..|b| - 1];
      assert (a + b)[..|a + b| - 1] == a + b';
      ForwardedAppend(a, b', kind);
    }
  }

  /** Splitting a record list at any point splits what it forwards at the matching point. */
  lemma ForwardedSplit(rs: seq<StreamRecord>, k: nat, kind: ImageKind)
    requires k <= |rs|
    ensures Forwarded(rs, kind) == Forwarded(rs[..k], kind) + Forwarded(rs[k..], kind)
  {
    assert rs == rs[..k] + rs[k..];
    ForwardedAppend(rs[..k], rs[k..], kind);
  }

  /** Building a prefix's output record by record gives the reference output of that prefix. */
  lemma {:induction false} ForwardedPrefixIsForwarded(rs: seq<StreamRecord>, kind: ImageKind, j: nat)
    requires j <= |rs|
    ensures ForwardedPrefix(rs, kind, j) == Forwarded(rs[..j], kind)
  {
    if j == 0 {
      assert rs[..0] == [];
    } else {
      ForwardedPrefixIsForwarded(rs, kind, j - 1);
      var front := rs[..j];
      assert front[..j - 1] == rs[..j - 1];
      assert Forwarded(front, kind) == Forwarded(front[..j - 1], kind) + Emit(rs[j - 1], kind);
    }
  }

  /** The running total is the size of what the same records forward. */
  lemma {:induction false} PrefixSizeIsTotalSize(rs: seq<StreamRecord>, kind: ImageKind, j: nat)
    requires j <= |rs|
    ensures PrefixSize(rs, kind, j) == TotalSize(ForwardedPrefix(rs, kind, j))
  {
    if j > 0 {
      PrefixSizeIsTotalSize(rs, kind, j - 1);
      var before := ForwardedPrefix(rs, kind, j - 1);
      match Selected(rs[j - 1], kind)
      case None =>
        assert ForwardedPrefix(rs, kind, j) == before;
      case Some(d) =>
        assert ForwardedPrefix(rs, kind, j) == before + [FirehoseRecord(d)];
        assert (before + [FirehoseRecord(d)])[..|before|] == before;
    }
  }

  /** Longer prefixes forward at least as much, in count and in size. */
  lemma {:induction false} PrefixMonotone(rs: seq<StreamRecord>, kind: ImageKind, i: nat, j: nat)
    requires i <= j <= |rs|
    ensures |ForwardedPrefix(rs, kind, i)| <= |ForwardedPrefix(rs, kind, j)|
    ensures PrefixSize(rs, kind, i) <= PrefixSize(rs, kind, j)
    decreases j
  {
    if i < j {
      PrefixMonotone(rs, kind, i, j - 1);
    }
  }

  /** Sizes add up over concatenation. */
  lemma {:induction false} TotalSizeAppend(a: seq<FirehoseRecord>, b: seq<FirehoseRecord>)
    ensures TotalSize(a + b) == TotalSize(a) + TotalSize(b)
  {
    if |b| == 0 {
      assert a + b == a;
    } else {
      var b' := b[..|b| - 1];
      assert (a + b)[..|a + b| - 1] == a + b';
      TotalSizeAppend(a, b');
    }
  }

  /** The first record with the selected image heads what any longer prefix forwards. */
  lemma {:induction false} ForwardedPrefixHead(rs: seq<StreamRecord>, kind: ImageKind, d: Blob, j: nat)
    requires 0 < j <= |rs| && Selected(rs[0], kind) == Some(d)
    ensures |ForwardedPrefix(rs, kind, j)| > 0 && ForwardedPrefix(rs, kind, j)[0] == FirehoseRecord(d)
  {
    if j > 1 {
      ForwardedPrefixHead(rs, kind, d, j - 1);
    }
  }

  /** Nothing is dropped exactly when every record carries the selected image. */
  lemma {:induction false} ForwardedKeepsAll(rs: seq<StreamRecord>, kind: ImageKind)
    ensures |Forwarded(rs, kind)| == |rs| <==> forall i :: 0 <= i < |rs| ==> Selected(rs[i], kind).Some?
  {
    if |rs| > 0 {
      var front := rs[..|rs| - 1];
      ForwardedKeepsAll(front, kind);
      assert forall i :: 0 <= i < |front| ==> front[i] == rs[i];
    }
  }
}

=== FILE: termination.dfy ===
/**
 * When the recursion of `create_kinesis_batches` ends. Each nested call
 * receives the records its caller's pass did not consume; the recursion
 * ends when that list is empty.
 */
module Termination {

  import opened StreamRecords
  import opened KinesisPass
  import opened KinesisBatches

  /** The list that the `n`-th nested call receives (call 0 is the outermost). */
  function CallArgument(rs: seq<StreamRecord>, kind: ImageKind, lim: Limits, n: nat): (arg: seq<StreamRecord>)
    decreases n
  {
    if n == 0 || |rs| == 0 then rs else CallArgument(rs[Consumed(rs, kind, lim)..], kind, lim, n - 1)
  }

  /** Every nested call receives a suffix of the original list: records are only ever dropped from the front. */
  lemma {:induction false} CallArgumentIsSuffix(rs: seq<StreamRecord>, kind: ImageKind, lim: Limits, n: nat)
    ensures |CallArgument(rs, kind, lim, n)| <= |rs|
    ensures CallArgument(rs, kind, lim, n) == rs[|rs| - |CallArgument(rs, kind, lim, n)|..]
    decreases n
  {
    if n > 0 && |rs| > 0 {
      var k := Consumed(rs, kind, lim);
      var arg := CallArgument(rs[k..], kind, lim, n - 1);
      CallArgumentIsSuffix(rs[k..], kind, lim, n - 1);
      assert rs[k..][|rs[k..]| - |arg|..] == rs[|rs| - |arg|..];
    }
  }

  /** When every record fits, the recursion reaches the empty list within `|rs|` nested calls. */
  lemma {:induction false} FitsTerminates(rs: seq<StreamRecord>, kind: ImageKind, lim: Limits)
    requires ValidLimits(lim) && AllFit(rs, kind, lim)
    ensures forall n :: n >= |rs| ==> CallArgument(rs, kind, lim, n) == []
    decreases |rs|
  {
    if |rs| > 0 {
      var k := Consumed(rs, kind, lim);
      PassStalls(rs, kind, lim);
      AllFitSuffix(rs, kind, lim, k);
      FitsTerminates(rs[k..], kind, lim);
      forall n | n >= |rs| ensures CallArgument(rs, kind, lim, n) == [] {
        assert CallArgument(rs, kind, lim, n) == CallArgument(rs[k..], kind, lim, n - 1);
      }
    }
  }

  /** A record that alone reaches `maxBytes` is in the argument of every nested call. */
  lemma {:induction false} OversizedStays(rs: seq<StreamRecord>, kind: ImageKind, lim: Limits, n: nat)
    requires !AllFit(rs, kind, lim)
    ensures !AllFit(CallArgument(rs, kind, lim, n), kind, lim)
    ensures CallArgument(rs, kind, lim, n) != []
    decreases n
  {
    if n > 0 {
      var i :| 0 <= i < |rs| && !Fits(rs[i], kind, lim);
      var k := Consumed(rs, kind, lim);
      OversizedNotConsumed(rs, kind, lim, i);
      assert rs[k..][i - k] == rs[i];
      assert !AllFit(rs[k..], kind, lim);
      OversizedStays(rs[k..], kind, lim, n - 1);
      assert CallArgument(rs, kind, lim, n) == CallArgument(rs[k..], kind, lim, n - 1);
    }
  }

  /**
   * With a record at position `j` that alone reaches `maxBytes`, by the `j`-th
   * nested call (or any later one) the pass consumes nothing, so the next call
   * receives the same list again: the recursion never reaches its base case,
   * and on Python 2 the interpreter's recursion limit ends the invocation
   * with an error.
   */
  lemma {:induction false} OversizedLoops(rs: seq<StreamRecord>, kind: ImageKind, lim: Limits, j: nat, n: nat)
    requires ValidLimits(lim)
    requires j < |rs| && j <= n && !Fits(rs[j], kind, lim)
    ensures CallArgument(rs, kind, lim, n) != []
    ensures Consumed(CallArgument(rs, kind, lim, n), kind, lim) == 0
    ensures CallArgument(rs, kind, lim, n + 1) == CallArgument(rs, kind, lim, n)
    decreases n
  {
    var k := Consumed(rs, kind, lim);
    OversizedNotConsumed(rs, kind, lim, j);
    if n == 0 {
      PassStalls(rs, kind, lim);
      assert rs[0..] == rs;
    } else if k == 0 {
      PassStalls(rs, kind, lim);
      assert rs[0..] == rs;
      OversizedLoops(rs, kind, lim, 0, n - 1);
    } else {
      assert rs[k..][j - k] == rs[j];
      OversizedLoops(rs[k..], kind, lim, j - k, n - 1);
    }
  }

  /**
   * The recursion reaches its base case, the empty list, if and only if every
   * record's selected image is shorter than `maxBytes`.
   */
  lemma TerminatesIffAllFit(rs: seq<StreamRecord>, kind: ImageKind, lim: Limits)
    requires ValidLimits(lim)
    ensures (exists n :: CallArgument(rs, kind, lim, n) == []) <==> AllFit(rs, kind, lim)
  {
    if AllFit(rs, kind, lim) {
      FitsTerminates(rs, kind, lim);
      assert CallArgument(rs, kind, lim, |rs|) == [];
    } else {
      forall n ensures CallArgument(rs, kind, lim, n) != [] {
        OversizedStays(rs, kind, lim, n);
      }
    }
  }
}

=== FILE: wrappers.dfy ===
/** The optional value used for Python's "key present or not" and "None or a list". */
module Wrappers {

  datatype Option<+T> = None | Some(value: T)
}
